=== FILE: README.md ===
# Credits, subscription quotas and watermark unlocks: a Dafny model

This project models the billing and entitlement logic of the AI video pricing
guide's three example integrations with the Dodo payment provider:

1. **Credit-based pricing.** A video-generation job is priced from its
   duration, quality and model. `generateVideo` refuses the job with
   "Insufficient credits" when the user is unknown or cannot afford it.
   Otherwise it debits the cost and logs one `video_generation` transaction
   in a single database transaction, and only then queues the job. The
   `payment.succeeded` webhook adds the first line item's `total_credits` and
   logs one `purchase` transaction. The catalog derives
   `total_credits = credits + bonus` for each package.
2. **Subscription tiers.** `canExportVideo` gates exports on the plan's
   `exports_per_month`, where `-1` means unlimited. The counter is read from
   the usage tracker of the current calendar month. `recordExport` appends a
   usage record. The `subscription.renewed` webhook upserts the month's
   tracker: it zeroes `exports_used`, and keeps `storage_used_gb` only when
   that month's tracker already exists. `upgradeSubscription` changes the plan at the provider
   and then overwrites the local row's `limits` and `planId`.
3. **Freemium watermark.** `handleExport` exports without a watermark only when
   the user's plan metadata has `watermark_free === true`. Otherwise it returns
   the three-option upsell. The payment webhook unlocks one video on a
   `watermark_removal` payment, and flags the user on `subscription.active`.

Each database is an immutable value: maps keyed by id, and sequences for tables
read with `findFirst` (so "first" means first in table order). Every
`$transaction` is one atomic step. Each handler returns `Result`: an exception
(an explicit `Error`, a `TypeError` on a missing payload object such as
`metadata`, `line_items[0]` or `subscription`, an ORM validation error when a
required field such as `user_id` or `video_id` is missing and so `undefined`,
or an ORM "record not found") becomes `Err` with no state change. A payload's
`payment_id` or `subscription_id` is read without a check, and the ORM leaves
an `undefined` data field out of the write. So a missing id is not an error
for the payment handlers: the purchase row is logged without a payment id,
and an unlocked video or flagged user keeps its stored id. A renewal without
a subscription id fails, because the tracker's compound unique key is then
incomplete. Provider SDK results are parameters. The `now` date is an input.

Observations the proofs make precise:
- Payment events are not deduplicated. A redelivered purchase is credited
  again (`CreditLedger.RedeliveryCreditsTwice`).
- Storage is not carried into a new month. The tracker's key includes the
  month, and the upsert creates a new month's tracker with
  `storage_used_gb: 0`. The code comments the update branch as keeping the
  cumulative storage, but that branch keeps it only within the month. A
  January tracker holding 40 GB leaves the February check reading 0 GB
  (`SubscriptionRenewal.NewMonthStartsStorageAtZero`,
  `SubscriptionRenewal.StorageNotCarriedIntoFebruary`).
- Nothing in the modelled code increments `exports_used`. Recording an export
  never changes a quota decision (`UsageTracking.RecordExportKeepsDecision`).
- `handleExport` never consults the per-video unlock that a one-time
  `watermark_removal` payment writes. That payment leaves every export
  decision as it was, so the buyer is still shown the upsell for that video
  (`WatermarkPayment.UnlockPaymentNeverChangesExportDecision`).

The code has no event deduplication. Its quota check does not increment the
counter. No single step combines credits, quotas and unlocks into one
decision. The model claims none of these.

Module layout: `Basics` (Option, Result, error kinds), `Tables` (`findFirst`),
`Calendar` (Gregorian dates and the billing month), `Events` (webhook payload),
then the program's modules:
- `CreditCost`: the price table of `01-credit-based/usage/track-consumption.ts`.
- `CreditCatalog`: `01-credit-based/setup/create-products.ts`.
- `CreditLedger`: the generation step of `01-credit-based/usage/track-consumption.ts`,
  and `01-credit-based/webhooks/payment-success.ts`.
- `SubscriptionTiers`: `02-subscription-tiers/setup/create-products.ts`.
- `UsageTracking`: `02-subscription-tiers/webhooks/usage-tracking.ts`.
- `SubscriptionRenewal`: `02-subscription-tiers/webhooks/subscription-renewal.ts`.
  Both webhook files use the same `getCurrentBillingPeriod`, which is `Calendar.CurrentBillingPeriod`.
- `PlanUpgrades`: `02-subscription-tiers/management/plan-upgrades.ts`.
- `WatermarkExport`: `03-freemium-watermark/export/export-flow.ts`.
- `WatermarkPayment`: `03-freemium-watermark/webhooks/payment-success.ts`.

## Model

| member | source | states |
|---|---|---|
| Tables.FirstIndex | code-examples/02-subscription-tiers/webhooks/usage-tracking.ts:18-39 | `findFirst` returns the first matching row, or none exactly when no row matches |
| CreditCost.CeilTenThousandth | code-examples/01-credit-based/usage/track-consumption.ts:69 | the result is the ceiling of n/10000: the least integer r with n <= 10000·r |
| CreditCost.Cost | code-examples/01-credit-based/usage/track-consumption.ts:50-69 | the cost is base × quality × model rounded up to a whole credit, and always lies between 5 and 90 |
| CreditCost.ScaledBounds | code-examples/01-credit-based/usage/track-consumption.ts:51-67 | every product of table entries or fallbacks lies between 10·1.0·0.5 and 20·3.0·1.5 (scaled) |
| CreditCost.UnknownValuesFallBack | code-examples/01-credit-based/usage/track-consumption.ts:51-67 | an unknown duration, quality or model is priced as 10 base credits, ×1.0 and ×1.0 |
| CreditCost.CostTableCorners | code-examples/01-credit-based/usage/track-consumption.ts:50-69 | 5s/480p/turbo costs 5, 10s/4K/pro costs 90, and 5s/720p/turbo rounds 7.5 up to 8 |
| CreditCost.CostMonotoneInDuration | code-examples/01-credit-based/usage/track-consumption.ts:51-54 | a longer duration never costs less, for every quality and model |
| CreditCost.CostMonotoneInQuality | code-examples/01-credit-based/usage/track-consumption.ts:56-61 | a higher quality never costs less, for every duration and model |
| CreditCost.CostMonotoneInModel | code-examples/01-credit-based/usage/track-consumption.ts:63-67 | a dearer model never costs less, for every duration and quality |
| CreditCatalog.CreateCreditProducts | code-examples/01-credit-based/setup/create-products.ts:29-48 | one product per package in order; its metadata copies credits and bonus unchanged and sets total_credits to their sum |
| CreditCatalog.PackageTableFacts | code-examples/01-credit-based/setup/create-products.ts:8-27 | totals are 100, 600 and 2500; the Pro bonus is 20% and the Business bonus 25%; every total is at least the base credits |
| CreditLedger.BalanceAppend | code-examples/01-credit-based/usage/track-consumption.ts:35-43 | appending a transaction changes only its owner's ledger sum, by its amount |
| CreditLedger.PostingKeepsReconciled | code-examples/01-credit-based/webhooks/payment-success.ts:9-30 | changing a balance by an amount together with appending one row of that amount keeps every balance equal to its ledger sum |
| CreditLedger.GenerateVideo | code-examples/01-credit-based/usage/track-consumption.ts:8-48 | fails with InsufficientCredits exactly when the user is missing or short of the cost; otherwise the balance drops by the cost and stays non-negative, other balances are unchanged, one `-cost` video_generation row is appended, and the job is produced only with the debited ledger |
| CreditLedger.GenerateVideoKeepsInvariant | code-examples/01-credit-based/usage/track-consumption.ts:20-44 | a successful generation keeps balance == sum of transactions and non-negative balances, and lowers the ledger sum by the cost |
| CreditLedger.ParsePurchase | code-examples/01-credit-based/webhooks/payment-success.ts:4-6 | the purchase is read from metadata.user_id and the first line item's total_credits, and fails exactly when the payment or line-item metadata object is absent, either field is absent or ill-typed, or there is no line item |
| CreditLedger.HandlePaymentWebhook | code-examples/01-credit-based/webhooks/payment-success.ts:2-32 | other event types change nothing; payment.succeeded adds total_credits to the buyer only and appends exactly one purchase row with that amount and the payment id (none if the payload has none); a malformed payload or an unknown user changes nothing |
| CreditLedger.PaymentWebhookKeepsInvariant | code-examples/01-credit-based/webhooks/payment-success.ts:9-30 | a handled purchase keeps balance == sum of transactions, and keeps balances non-negative when the grant is not negative |
| CreditLedger.OnlyFirstLineItemCounts | code-examples/01-credit-based/webhooks/payment-success.ts:5-6 | payments that agree on the first line item are handled identically, whatever later line items hold |
| CreditLedger.RedeliveryCreditsTwice | code-examples/01-credit-based/webhooks/payment-success.ts:2-31 | delivering the same event twice credits twice and appends two identical purchase rows (no deduplication) |
| CreditLedger.PackagePurchaseGrantsTotal | code-examples/01-credit-based/setup/create-products.ts:41-45 | buying a catalog package whose product metadata reaches the webhook adds credits + bonus, which is at least the base credits |
| CreditLedger.StepKeepsInvariant | code-examples/01-credit-based/usage/track-consumption.ts:20-44 | any single generation or webhook keeps the ledger reconciled, and non-negative unless it grants a negative amount |
| CreditLedger.RunKeepsInvariant | code-examples/01-credit-based/webhooks/payment-success.ts:9-30 | after any sequence of generations and payment webhooks every balance equals its ledger sum and none is negative |
| CreditLedger.PurchaseThenGenerateScenario | code-examples/01-credit-based/webhooks/payment-success.ts:3-30 | from 0, a Starter Pack purchase gives 100, a 10s/720p/standard job leaves 70 backed by +100 and -30 rows, and a redelivery gives 170 |
| Calendar.CurrentBillingPeriod | code-examples/02-subscription-tiers/webhooks/usage-tracking.ts:41-47 | the window runs from the 1st to the last day of now's month (the next day is a 1st) and contains now |
| Calendar.DayZeroPrecedesDayOne | code-examples/02-subscription-tiers/webhooks/usage-tracking.ts:44 | day 0 of a month index is the day before its day 1, with December rolling into January of the next year |
| Calendar.SamePeriodIffSameMonth | code-examples/02-subscription-tiers/webhooks/subscription-renewal.ts:3-9 | two dates get the same window exactly when they share year and month, so the renewal and the usage check agree on the key |
| Calendar.PeriodContainsExactlyItsMonth | code-examples/02-subscription-tiers/webhooks/usage-tracking.ts:43-44 | a valid date lies within the window exactly when it is in now's month |
| SubscriptionTiers.CreateSubscriptionProducts | code-examples/02-subscription-tiers/setup/create-products.ts:44-64 | one product per tier in order, each billed monthly at the tier's price and with the tier's features as its metadata |
| SubscriptionTiers.TierTableFacts | code-examples/02-subscription-tiers/setup/create-products.ts:8-42 | export caps 10, 50 and unlimited; storage 5/50/200 GB, durations 60/300/600 s and prices 2900/8900/19900 strictly increase |
| UsageTracking.CanExportVideo | code-examples/02-subscription-tiers/webhooks/usage-tracking.ts:49-66 | allowed exactly when the user's first active plan is unlimited or this month's first counter is below the cap; a denial carries used and limit with used >= limit; over the cap the result is Denied(used, limit); the only errors are a missing plan and a missing counter under a finite cap |
| UsageTracking.RecordExport | code-examples/02-subscription-tiers/webhooks/usage-tracking.ts:68-77 | exactly one export record stamped now is appended; subscriptions and trackers are unchanged |
| UsageTracking.RecordExportKeepsDecision | code-examples/02-subscription-tiers/webhooks/usage-tracking.ts:68-77 | recording an export never changes any user's export decision |
| UsageTracking.ProSubscriberNeverDenied | code-examples/02-subscription-tiers/setup/create-products.ts:32-41 | a user whose current plan has the Pro limits is always allowed |
| UsageTracking.StarterCappedAtTen | code-examples/02-subscription-tiers/setup/create-products.ts:9-19 | a Starter user is denied with (used/10) once used >= 10 and allowed below |
| SubscriptionRenewal.UpsertRenewal | code-examples/02-subscription-tiers/webhooks/subscription-renewal.ts:20-39 | an existing tracker for the key gets exports 0 with storage kept and other trackers untouched; otherwise one tracker with both counters 0 is appended; key uniqueness is preserved |
| SubscriptionRenewal.UpsertIdempotent | code-examples/02-subscription-tiers/webhooks/subscription-renewal.ts:20-39 | upserting the same key twice equals upserting it once |
| SubscriptionRenewal.HandleSubscriptionWebhook | code-examples/02-subscription-tiers/webhooks/subscription-renewal.ts:12-41 | only subscription.renewed acts; it upserts the tracker keyed by (user, subscription, current month) and changes nothing else; a payload without subscription, subscription_id or user_id fails |
| SubscriptionRenewal.RenewalResetsOnlyItsKey | code-examples/02-subscription-tiers/webhooks/subscription-renewal.ts:28-38 | after renewal the key's tracker exists with exports 0 and storage as before (0 if new), and trackers with other keys are untouched |
| SubscriptionRenewal.RenewalIdempotent | code-examples/02-subscription-tiers/webhooks/subscription-renewal.ts:13-39 | delivering a renewal again at any later time in the same month leaves the state of one delivery |
| SubscriptionRenewal.NewMonthStartsStorageAtZero | code-examples/02-subscription-tiers/webhooks/subscription-renewal.ts:20-38 | when the user has no tracker for the month, the renewal appends one with exports and storage both 0, and the month's usage check reads that tracker, whatever earlier months hold |
| SubscriptionRenewal.StorageNotCarriedIntoFebruary | code-examples/02-subscription-tiers/webhooks/subscription-renewal.ts:20-38 | a January tracker with 40 GB and a February renewal: the February check reads 0 GB and the January row is unchanged |
| SubscriptionRenewal.RenewalReopensQuota | code-examples/02-subscription-tiers/webhooks/subscription-renewal.ts:28-31 | after a renewal, a same-month check by a user with a positive or unlimited cap (and no tracker under another subscription) is allowed |
| PlanUpgrades.UpgradeSubscription | code-examples/02-subscription-tiers/management/plan-upgrades.ts:9-35 | a provider failure aborts before any local change; otherwise the row with the subscription id gets the product metadata as limits and the new plan id, no other row, column, tracker or record changes, and the provider's result is returned; a missing row fails |
| PlanUpgrades.UpgradeIdempotent | code-examples/02-subscription-tiers/management/plan-upgrades.ts:26-32 | repeating an upgrade leaves the state of the first |
| PlanUpgrades.UpgradeToProUnlocksExports | code-examples/02-subscription-tiers/management/plan-upgrades.ts:22-32 | upgrading the user's current subscription to the Pro limits allows exports at once, without resetting counters |
| WatermarkExport.HandleExport | code-examples/03-freemium-watermark/export/export-flow.ts:4-50 | exports without a watermark exactly when the plan metadata's watermark_free is boolean true, otherwise returns the upsell; an unknown user fails |
| WatermarkExport.UpsellShape | code-examples/03-freemium-watermark/export/export-flow.ts:22-49 | the upsell lists subscription, one-time and free options in that order, and recommends only the subscription |
| WatermarkExport.ExportReadsOnlyPlanMetadata | code-examples/03-freemium-watermark/export/export-flow.ts:8-20 | two states that agree on the user's linked plan give the same decision, whatever the videos and user flags |
| WatermarkExport.OnlyBooleanTrueUnlocks | code-examples/03-freemium-watermark/export/export-flow.ts:13-15 | a missing plan or metadata, an absent flag, or the values 'true', false, null and 1 all lead to the upsell |
| WatermarkPayment.HandleWatermarkPayment | code-examples/03-freemium-watermark/webhooks/payment-success.ts:9-40 | a watermark_removal payment marks only that video watermark-free with the payment id (the stored one is kept if the payload has none) and requests its clean export; subscription.active flags only that user with the subscription id (likewise kept if absent); other events and other payment types change nothing; a payment without a metadata object fails |
| WatermarkPayment.WatermarkPaymentIdempotent | code-examples/03-freemium-watermark/webhooks/payment-success.ts:15-38 | replaying an event reaches the same state (and requests the same export again) |
| WatermarkPayment.UnlockPaymentNeverChangesExportDecision | code-examples/03-freemium-watermark/webhooks/payment-success.ts:10-26 | a handled event other than subscription.active (in particular a one-time watermark_removal payment) changes no export decision, so a one-time buyer still gets the upsell |

## Left out

- `code-examples/01-credit-based/setup/purchase-handler.ts` and `code-examples/02-subscription-tiers/setup/subscribe.ts`: they only create a payment link through the SDK and read environment variables.
- `code-examples/03-freemium-watermark/setup/create-products.ts`: one SDK call with literal metadata. Its `watermark_removal` tag is `WatermarkPayment.WatermarkRemovalTag`, and its `watermark_free: true` flag is the value `HasWatermarkFree` looks for.
- Provider SDK calls (`changePlan`, `products.retrieve`, `products.create`): their results are parameters, and `products.create` is modelled as the list of requests issued.
- `queueVideoGeneration` and `exportVideo`: external effects. The model returns the job or the export request (with its `watermark` flag) instead of performing it.
- Database access: tables are maps and sequences. Each `$transaction` array is one atomic step. ORM errors are collapsed into a few error kinds.
- Concurrency: the race between the balance check and the debit is not modelled. The handlers run one at a time.
- Time: `now` is a `(year, month, day)` input. Time of day and time zones are left out, and so is the `timestamp` precision of usage records.
- Floating point: the multipliers are integers scaled by 100. This is exact, because every factor is a multiple of 0.5.
- Display text: option names, prices, descriptions, calls to action, transaction descriptions and the denial message. The denial keeps only its `(used, limit)` pair.
- Lookup keys inherited by JavaScript objects (`'toString'` and the like) are not modelled. The typed parameters never hold them, and every other unknown string takes the fallback.
- The `user.subscription` relation that `handleExport` loads is an opaque field of the user row. The database schema is not part of this model. Under a usual schema the relation follows the `subscriptionId` column, so the model does not claim whether a `subscription.active` event can change an export decision.
- `WatermarkPayment.UnlockPaymentNeverChangesExportDecision`: stated only for events other than `subscription.active`, because of the schema gap above.
- Plan limits: a subscription's `limits` and a retrieved product's metadata are assumed to be a tier's features record with a numeric `exports_per_month`. The upgrade handler copies whatever metadata the product has into `limits`. The model cannot express other metadata, so how `canExportVideo` would compare a missing, `null` or string cap is not modelled.
- Row order: `findFirst` has no `orderBy`, so the ORM promises no order. The model reads the first matching row in table order. `UsageTracking.CurrentSubscription`, `UsageTracking.MonthlyUsage` and the lemmas built on them (such as `PlanUpgrades.UpgradeToProUnlocksExports`) depend on this choice when a user has two active subscriptions or two trackers in a month.
- Metadata numbers are integers. Nothing in the handlers checks that `total_credits` is one, and a fractional grant is not modelled.
- `CreditLedger.RunKeepsInvariant`: non-negative balances are proved only when every purchase grants a non-negative amount. The handler does not check the sign of `total_credits`.

=== FILE: basics.dfy ===
/** Failure-carrying wrappers shared by every component of the billing model.

    The handlers signal failure by throwing (an explicit `Error`, a
    `TypeError` on an absent payload object, or the ORM's "record not found" /
    validation error). Each thrown error aborts the handler before its database
    transaction commits, so here it becomes an `Err` value and the state is
    returned unchanged by construction. */
module Basics {

  datatype Option<+T> = None | Some(value: T)

  /** A user's primary key. */
  type UserId = string

  datatype Error =
    | InsufficientCredits   // `generateVideo`: no such user, or balance below the cost
    | MalformedEvent        // a payload field the handler dereferences is absent or of the wrong type
    | RecordNotFound        // an ORM `update` whose `where` matches no row
    | UserNotFound          // `findUnique` returned null and the handler dereferenced it
    | NoActiveSubscription  // `getCurrentSubscription` returned null and its limits were read
    | NoUsageRecord         // `getMonthlyUsage` returned null and its counter was read
    | ProviderFailure       // a payment-provider SDK call rejected

  datatype Result<+T> = Ok(value: T) | Err(error: Error)
}

/** Row lookup in a table kept in insertion order. */
module Tables {
  import opened Basics

  /** Index of the first row satisfying `p`; this is what an unordered
      `findFirst` returns when rows come back in table order. */
  function FirstIndex<T>(rows: seq<T>, p: T -> bool): (r: Option<nat>)
    ensures r.Some? ==> r.value < |rows| && p(rows[r.value])
    ensures r.Some? ==> forall j :: 0 <= j < r.value ==> !p(rows[j])
    ensures r.None? <==> forall j :: 0 <= j < |rows| ==> !p(rows[j])
    decreases |rows|
  {
    if |rows| == 0 then None
    else if p(rows[0]) then Some(0)
    else match FirstIndex(rows[1..], p)
      case None => None
      case Some(k) => Some(k + 1)
  }

  /** `FirstIndex` is determined by its contract: the index of a matching row
      with no match before it. */
  lemma FirstIndexIs<T>(rows: seq<T>, p: T -> bool, k: nat)
    requires k < |rows| && p(rows[k])
    requires forall j :: 0 <= j < k ==> !p(rows[j])
    ensures FirstIndex(rows, p) == Some(k)
  {
  }

  /** The first row satisfying `p`, if any. */
  function FindFirst<T>(rows: seq<T>, p: T -> bool): (r: Option<T>)
    ensures r.Some? <==> exists j :: 0 <= j < |rows| && p(rows[j])
    ensures r.Some? ==> p(r.value) && r.value in rows
  {
    match FirstIndex(rows, p)
    case None => None
    case Some(k) => Some(rows[k])
  }
}

=== FILE: calendar.dfy ===
/** Gregorian calendar dates and the calendar-month billing window.

    `now` is an input `(year, month, day)` with `month` in 1..12; the program's
    `Date` objects carry a time of day and a time zone, which the billing window
    never looks at because every boundary it builds is a local midnight. */
module Calendar {

  datatype Date = Date(year: int, month: int, day: int)

  /** A billing window: its first and its last calendar day, both inclusive. */
  datatype Period = Period(start: Date, end: Date)

  predicate IsLeapYear(y: int) {
    (y % 4 == 0 && y % 100 != 0) || y % 400 == 0
  }

  function DaysInMonth(y: int, m: int): (n: int)
    requires 1 <= m <= 12
    ensures 28 <= n <= 31
    ensures n == 29 <==> m == 2 && IsLeapYear(y)
  {
    if m == 2 then (if IsLeapYear(y) then 29 else 28)
    else if m == 4 || m == 6 || m == 9 || m == 11 then 30
    else 31
  }

  predicate Valid(d: Date) {
    1 <= d.month <= 12 && 1 <= d.day <= DaysInMonth(d.year, d.month)
  }

  /** Calendar order: by year, then month, then day. */
  predicate Le(a: Date, b: Date) {
    a.year < b.year
    || (a.year == b.year && a.month < b.month)
    || (a.year == b.year && a.month == b.month && a.day <= b.day)
  }

  /** The following calendar day. */
  function NextDay(d: Date): (r: Date)
    requires Valid(d)
    ensures Valid(r) && Le(d, r) && d != r
    ensures r.day == 1 <==> d.day == DaysInMonth(d.year, d.month)
  {
    if d.day < DaysInMonth(d.year, d.month) then Date(d.year, d.month, d.day + 1)
    else if d.month < 12 then Date(d.year, d.month + 1, 1)
    else Date(d.year + 1, 1, 1)
  }

  /** JavaScript's `new Date(year, monthIndex, day)` (monthIndex counted from
      0) for the arguments the billing code passes: a month index one past
      December rolls into January of the next year, and day 0 names the last
      day of the month before. */
  function LocalDate(year: int, monthIndex: int, day: int): (r: Date)
    requires 0 <= monthIndex <= 12 && 0 <= day <= 1
    ensures Valid(r)
  {
    var y := if monthIndex == 12 then year + 1 else year;
    var mi := if monthIndex == 12 then 0 else monthIndex;
    if day == 1 then Date(y, mi + 1, 1)
    else if mi == 0 then Date(y - 1, 12, 31)
    else Date(y, mi, DaysInMonth(y, mi))
  }

  /** Day 0 is the day before day 1, including across a year boundary. */
  lemma DayZeroPrecedesDayOne(year: int, monthIndex: int)
    requires 0 <= monthIndex <= 12
    ensures NextDay(LocalDate(year, monthIndex, 0)) == LocalDate(year, monthIndex, 1)
  {
  }

  /** `getCurrentBillingPeriod`: from the 1st of the month containing `now`
      (`new Date(y, m, 1)`) to day 0 of the following month
      (`new Date(y, m + 1, 0)`), where `m` is JavaScript's 0-based month. */
  function CurrentBillingPeriod(now: Date): (p: Period)
    requires Valid(now)
    ensures Valid(p.start) && Valid(p.end)
    ensures p.start == Date(now.year, now.month, 1)
    ensures p.end.year == now.year && p.end.month == now.month
    ensures NextDay(p.end).day == 1
    ensures Le(p.start, now) && Le(now, p.end)
  {
    Period(LocalDate(now.year, now.month - 1, 1), LocalDate(now.year, now.month, 0))
  }

  /** Two instants share a billing window exactly when they fall in the same
      calendar month, so the usage check and the renewal handler, which build
      the window independently, agree on the key. */
  lemma SamePeriodIffSameMonth(a: Date, b: Date)
    requires Valid(a) && Valid(b)
    ensures CurrentBillingPeriod(a) == CurrentBillingPeriod(b)
        <==> a.year == b.year && a.month == b.month
  {
  }

  /** Every day of the window, and no other day, is mapped to the window. */
  lemma PeriodContainsExactlyItsMonth(now: Date, d: Date)
    requires Valid(now) && Valid(d)
    ensures var p := CurrentBillingPeriod(now);
      Le(p.start, d) && Le(d, p.end) <==> d.year == now.year && d.month == now.month
  {
  }
}

=== FILE: credit_catalog.dfy ===
/** The credit packages sold as one-time products, and the product metadata
    that later reaches the payment webhook through the checkout's line items. */
module CreditCatalog {
  import opened Events

  datatype CreditPackage = CreditPackage(name: string, priceCents: int, credits: int, bonus: int)

  /** Starter, Pro (20% bonus) and Business (25% bonus). */
  const CreditPackages: seq<CreditPackage> := [
    CreditPackage("Starter Pack", 1000, 100, 0),
    CreditPackage("Pro Pack", 4000, 500, 100),
    CreditPackage("Business Pack", 12000, 2000, 500)
  ]

  datatype OneTimePrice = OneTimePrice(priceCents: int, currency: string, discount: int, purchasingPowerParity: bool)

  /** The request passed to the provider's `products.create`. */
  datatype ProductRequest = ProductRequest(name: string, price: OneTimePrice, taxCategory: string, metadata: Metadata)

  function PackageMetadata(p: CreditPackage): Metadata {
    map["credits" := Num(p.credits), "bonus_credits" := Num(p.bonus), "total_credits" := Num(p.credits + p.bonus)]
  }

  function PackageProduct(p: CreditPackage): ProductRequest {
    ProductRequest(p.name, OneTimePrice(p.priceCents, "USD", 0, false), "digital_products", PackageMetadata(p))
  }

  /** What a product's metadata promises a buyer of that package. */
  predicate DescribesPackage(r: ProductRequest, p: CreditPackage) {
    && r.name == p.name
    && r.price.priceCents == p.priceCents
    && r.price.currency == "USD"
    && r.metadata.Keys == {"credits", "bonus_credits", "total_credits"}
    && r.metadata["credits"] == Num(p.credits)
    && r.metadata["bonus_credits"] == Num(p.bonus)
    && r.metadata["total_credits"] == Num(p.credits + p.bonus)
  }

  /** `createCreditProducts`: one `products.create` request per package, in
      table order; each carries the package's credits and bonus unchanged and
      their sum as `total_credits`. */
  method CreateCreditProducts(packages: seq<CreditPackage>) returns (requests: seq<ProductRequest>)
    ensures |requests| == |packages|
    ensures forall i :: 0 <= i < |packages| ==> DescribesPackage(requests[i], packages[i])
  {
    requests := [];
    for k := 0 to |packages|
      invariant |requests| == k
      invariant forall i :: 0 <= i < k ==> DescribesPackage(requests[i], packages[i])
    {
      requests := requests + [PackageProduct(packages[k])];
    }
  }

  /** The table's totals are 100, 600 and 2500 credits, the Pro bonus is 20% of
      its credits and the Business bonus 25%; no bonus is negative, so every
      total is at least the package's base credits. */
  lemma PackageTableFacts()
    ensures |CreditPackages| == 3
    ensures CreditPackages[0].credits + CreditPackages[0].bonus == 100
    ensures CreditPackages[1].credits + CreditPackages[1].bonus == 600
    ensures CreditPackages[2].credits + CreditPackages[2].bonus == 2500
    ensures CreditPackages[1].bonus * 100 == CreditPackages[1].credits * 20
    ensures CreditPackages[2].bonus * 100 == CreditPackages[2].credits * 25
    ensures forall i :: 0 <= i < |CreditPackages| ==>
      CreditPackages[i].bonus >= 0 && CreditPackages[i].credits + CreditPackages[i].bonus >= CreditPackages[i].credits
  {
  }
}

=== FILE: credit_cost.dfy ===
/** `calculateCreditCost`: the credit price of one video generation job.

    The program multiplies floating-point factors (1.0 .. 3.0 for quality and
    0.5 .. 1.5 for the model). Every factor is a multiple of 0.5, so the
    product is exact in binary floating point and equals the integer product
    of the factors scaled by 100, divided by 10000. */
module CreditCost {

  datatype VideoParams = VideoParams(duration: string, quality: string, model: string)

  /** The values each parameter's type admits, in increasing order of price. */
  const Durations: seq<string> := ["5s", "10s"]
  const Qualities: seq<string> := ["480p", "720p", "1080p", "4K"]
  const Models: seq<string> := ["turbo", "standard", "pro"]

  /** Base credits by duration; a value missing from the table falls back to 10. */
  function BaseCredits(duration: string): int {
    if duration == "5s" then 10
    else if duration == "10s" then 20
    else 10
  }

  /** Quality multiplier in hundredths; a missing value falls back to 1.0. */
  function QualityPercent(quality: string): int {
    if quality == "480p" then 100
    else if quality == "720p" then 150
    else if quality == "1080p" then 200
    else if quality == "4K" then 300
    else 100
  }

  /** Model multiplier in hundredths; a missing value falls back to 1.0. */
  function ModelPercent(model: string): int {
    if model == "turbo" then 50
    else if model == "standard" then 100
    else if model == "pro" then 150
    else 100
  }

  /** base × quality × model, scaled by 10000. */
  function Scaled(p: VideoParams): int {
    BaseCredits(p.duration) * QualityPercent(p.quality) * ModelPercent(p.model)
  }

  /** `Math.ceil(n / 10000)`. */
  function CeilTenThousandth(n: int): (r: int)
    ensures 10000 * (r - 1) < n <= 10000 * r
  {
    (n + 9999) / 10000
  }

  /** The scaled product of any three table entries (or fallbacks) lies between
      10·100·50 and 20·300·150. */
  lemma ScaledBounds(p: VideoParams)
    ensures 50000 <= Scaled(p) <= 900000
  {
  }

  /** The credit cost: the exact product rounded up to a whole credit. */
  function Cost(p: VideoParams): (r: int)
    ensures 10000 * (r - 1) < Scaled(p) <= 10000 * r
    ensures 5 <= r <= 90
  {
    ScaledBounds(p);
    CeilTenThousandth(Scaled(p))
  }

  /** A duration, quality or model missing from its table is priced as the
      shortest duration, the lowest quality and the standard model. */
  lemma UnknownValuesFallBack(p: VideoParams)
    ensures Cost(p) == Cost(VideoParams(
      if p.duration in Durations then p.duration else "5s",
      if p.quality in Qualities then p.quality else "480p",
      if p.model in Models then p.model else "standard"))
  {
  }

  /** The cheapest and dearest jobs, and a half credit rounded up. */
  lemma CostTableCorners()
    ensures Cost(VideoParams("5s", "480p", "turbo")) == 5
    ensures Cost(VideoParams("10s", "4K", "pro")) == 90
    ensures Cost(VideoParams("5s", "720p", "turbo")) == 8
    ensures Cost(VideoParams("10s", "720p", "pro")) == 45
  {
  }

  /** A longer duration never costs less, whatever the other two parameters. */
  lemma CostMonotoneInDuration(i: int, j: int, quality: string, model: string)
    requires 0 <= i <= j < |Durations|
    ensures Cost(VideoParams(Durations[i], quality, model)) <= Cost(VideoParams(Durations[j], quality, model))
  {
  }

  /** A higher quality never costs less, whatever the other two parameters. */
  lemma CostMonotoneInQuality(duration: string, i: int, j: int, model: string)
    requires 0 <= i <= j < |Qualities|
    ensures Cost(VideoParams(duration, Qualities[i], model)) <= Cost(VideoParams(duration, Qualities[j], model))
  {
  }

  /** A dearer model never costs less, whatever the other two parameters. */
  lemma CostMonotoneInModel(duration: string, quality: string, i: int, j: int)
    requires 0 <= i <= j < |Models|
    ensures Cost(VideoParams(duration, quality, Models[i])) <= Cost(VideoParams(duration, quality, Models[j]))
  {
  }
}

=== FILE: credit_ledger.dfy ===
/** The prepaid-credit ledger: the debit made by `generateVideo` and the
    credit made by the `payment.succeeded` webhook.

    The database holds a `credits` balance per user and an append-only
    `creditTransaction` table. Each handler writes the balance and the new
    transaction row in one `$transaction`, which is one atomic step here. */
module CreditLedger {
  import opened Basics
  import opened Events
  import opened CreditCost
  import CreditCatalog

  datatype TxnKind = VideoGeneration(params: VideoParams) | Purchase(productName: string)

  /** A `creditTransaction` row: signed amount, kind and originating payment. */
  datatype Txn = Txn(userId: UserId, amount: int, kind: TxnKind, paymentId: Option<string>)

  /** Every user's `credits` and the whole transaction table in insertion order. */
  datatype Ledger = Ledger(credits: map<UserId, int>, txns: seq<Txn>)

  /** The sum of the amounts of `u`'s transactions. */
  function Balance(txns: seq<Txn>, u: UserId): int {
    if |txns| == 0 then 0
    else (if txns[0].userId == u then txns[0].amount else 0) + Balance(txns[1..], u)
  }

  /** Every stored balance can be rebuilt from the transaction table. */
  predicate Reconciled(l: Ledger) {
    forall u :: u in l.credits ==> l.credits[u] == Balance(l.txns, u)
  }

  predicate NonNegative(l: Ledger) {
    forall u :: u in l.credits ==> l.credits[u] >= 0
  }

  /** Appending a row changes only its owner's balance, by the row's amount. */
  lemma {:induction false} BalanceAppend(txns: seq<Txn>, t: Txn, u: UserId)
    ensures Balance(txns + [t], u) == Balance(txns, u) + (if t.userId == u then t.amount else 0)
    decreases |txns|
  {
    if |txns| == 0 {
      assert txns + [t] == [t];
    } else {
      assert (txns + [t])[1..] == txns[1..] + [t];
      BalanceAppend(txns[1..], t, u);
    }
  }

  /** Adding `delta` to `u`'s balance together with appending one row of that
      amount for `u` keeps every balance reconciled. */
  lemma PostingKeepsReconciled(l: Ledger, t: Txn)
    requires Reconciled(l) && t.userId in l.credits
    ensures Reconciled(Ledger(l.credits[t.userId := l.credits[t.userId] + t.amount], l.txns + [t]))
  {
    forall v | v in l.credits
      ensures Balance(l.txns + [t], v) == Balance(l.txns, v) + (if t.userId == v then t.amount else 0)
    {
      BalanceAppend(l.txns, t, v);
    }
  }

  // ---------------------------------------------------------------------------
  // generateVideo
  // ---------------------------------------------------------------------------

  /** The background job handed to `queueVideoGeneration`. */
  datatype GenerationJob = GenerationJob(userId: UserId, params: VideoParams)

  /** A successful `generateVideo`: the debited ledger and the job queued after it. */
  datatype Generated = Generated(ledger: Ledger, job: GenerationJob)

  /** `generateVideo`: price the job, refuse it ("Insufficient credits") when
      the user is unknown or cannot afford it, otherwise debit the cost with
      one `video_generation` row and only then queue the job. */
  function GenerateVideo(l: Ledger, userId: UserId, params: VideoParams): (r: Result<Generated>)
    ensures r.Err? <==> userId !in l.credits || l.credits[userId] < Cost(params)
    ensures r.Err? ==> r.error == InsufficientCredits
    ensures r.Ok? ==>
      && r.value.ledger.credits.Keys == l.credits.Keys
      && r.value.ledger.credits[userId] == l.credits[userId] - Cost(params)
      && r.value.ledger.credits[userId] >= 0
      && (forall v :: v in l.credits && v != userId ==> r.value.ledger.credits[v] == l.credits[v])
    ensures r.Ok? ==>
      && |r.value.ledger.txns| == |l.txns| + 1
      && r.value.ledger.txns[..|l.txns|] == l.txns
      && r.value.ledger.txns[|l.txns|] == Txn(userId, -Cost(params), VideoGeneration(params), None)
    ensures r.Ok? ==> r.value.job == GenerationJob(userId, params)
  {
    var cost := Cost(params);
    if userId !in l.credits || l.credits[userId] < cost then Err(InsufficientCredits)
    else
      var debited := Ledger(l.credits[userId := l.credits[userId] - cost],
                            l.txns + [Txn(userId, -cost, VideoGeneration(params), None)]);
      Ok(Generated(debited, GenerationJob(userId, params)))
  }

  /** A generation keeps the ledger reconciled and every balance non-negative,
      and the user's reconstructed balance falls by exactly the cost. */
  lemma GenerateVideoKeepsInvariant(l: Ledger, userId: UserId, params: VideoParams)
    requires Reconciled(l)
    ensures var r := GenerateVideo(l, userId, params);
      r.Ok? ==>
        && Reconciled(r.value.ledger)
        && (NonNegative(l) ==> NonNegative(r.value.ledger))
        && Balance(r.value.ledger.txns, userId) == Balance(l.txns, userId) - Cost(params)
  {
    var r := GenerateVideo(l, userId, params);
    if r.Ok? {
      var t := Txn(userId, -Cost(params), VideoGeneration(params), None);
      PostingKeepsReconciled(l, t);
      assert r.value.ledger == Ledger(l.credits[userId := l.credits[userId] + t.amount], l.txns + [t]);
    }
  }

  // ---------------------------------------------------------------------------
  // handlePaymentWebhook
  // ---------------------------------------------------------------------------

  /** The fields the credit webhook reads from a payment. */
  datatype CreditPurchase = CreditPurchase(userId: UserId, totalCredits: int, productName: string, paymentId: Option<string>)

  /** Reads `metadata.user_id` and the first line item's name and
      `metadata.total_credits`; an absent metadata object, or an absent or
      ill-typed field, aborts the handler. */
  function ParsePurchase(p: Payment): (r: Result<CreditPurchase>)
    ensures r.Ok? <==>
      && StrField(p.metadata, "user_id").Some?
      && |p.lineItems| > 0
      && IntField(p.lineItems[0].metadata, "total_credits").Some?
    ensures r.Ok? ==>
      && p.metadata.value["user_id"] == Str(r.value.userId)
      && p.lineItems[0].metadata.value["total_credits"] == Num(r.value.totalCredits)
      && r.value.productName == p.lineItems[0].name
      && r.value.paymentId == p.paymentId
    ensures r.Err? ==> r.error == MalformedEvent
  {
    match StrField(p.metadata, "user_id")
    case None => Err(MalformedEvent)
    case Some(u) =>
      if |p.lineItems| == 0 then Err(MalformedEvent)
      else match IntField(p.lineItems[0].metadata, "total_credits")
        case None => Err(MalformedEvent)
        case Some(total) => Ok(CreditPurchase(u, total, p.lineItems[0].name, p.paymentId))
  }

  /** The row a purchase appends; a payment without an id logs a row without
      one. */
  function PurchaseTxn(c: CreditPurchase): Txn {
    Txn(c.userId, c.totalCredits, Purchase(c.productName), c.paymentId)
  }

  /** `handlePaymentWebhook`: on `payment.succeeded`, add the first line
      item's `total_credits` to the buyer's balance and log one `purchase`
      row carrying the payment id. Nothing is deduplicated. */
  function HandlePaymentWebhook(l: Ledger, e: Event): (r: Result<Ledger>)
    ensures e.eventType != "payment.succeeded" ==> r == Ok(l)
    ensures e.eventType == "payment.succeeded" && e.payment.None? ==> r == Err(MalformedEvent)
    ensures e.eventType == "payment.succeeded" && e.payment.Some? ==>
      var c := ParsePurchase(e.payment.value);
      && (c.Err? ==> r == Err(MalformedEvent))
      && (c.Ok? && c.value.userId !in l.credits ==> r == Err(RecordNotFound))
      && (c.Ok? && c.value.userId in l.credits ==>
            && r.Ok?
            && r.value.credits.Keys == l.credits.Keys
            && r.value.credits[c.value.userId] == l.credits[c.value.userId] + c.value.totalCredits
            && (forall v :: v in l.credits && v != c.value.userId ==> r.value.credits[v] == l.credits[v])
            && r.value.txns == l.txns + [PurchaseTxn(c.value)])
  {
    if e.eventType != "payment.succeeded" then Ok(l)
    else if e.payment.None? then Err(MalformedEvent)
    else match ParsePurchase(e.payment.value)
      case Err(err) => Err(err)
      case Ok(c) =>
        if c.userId !in l.credits then Err(RecordNotFound)
        else Ok(Ledger(l.credits[c.userId := l.credits[c.userId] + c.totalCredits], l.txns + [PurchaseTxn(c)]))
  }

  /** A purchase keeps the ledger reconciled; it keeps balances non-negative
      when the granted amount is not negative (the handler does not check). */
  lemma PaymentWebhookKeepsInvariant(l: Ledger, e: Event)
    requires Reconciled(l)
    ensures var r := HandlePaymentWebhook(l, e);
      r.Ok? ==> (Reconciled(r.value) && (NonNegative(l) && GrantsNonNegative(e) ==> NonNegative(r.value)))
  {
    var r := HandlePaymentWebhook(l, e);
    if r.Ok? && e.eventType == "payment.succeeded" {
      var c := ParsePurchase(e.payment.value).value;
      PostingKeepsReconciled(l, PurchaseTxn(c));
    }
  }

  /** The event grants no negative credit amount. */
  predicate GrantsNonNegative(e: Event) {
    (e.eventType == "payment.succeeded" && e.payment.Some? && ParsePurchase(e.payment.value).Ok?)
    ==> ParsePurchase(e.payment.value).value.totalCredits >= 0
  }

  /** Only the first line item is read: payments that agree on it, on the
      payment id and on the metadata are handled identically. */
  lemma OnlyFirstLineItemCounts(l: Ledger, eventType: string, p: Payment, q: Payment, sub: Option<SubscriptionData>)
    requires p.paymentId == q.paymentId && p.metadata == q.metadata
    requires |p.lineItems| > 0 && |q.lineItems| > 0 && p.lineItems[0] == q.lineItems[0]
    ensures HandlePaymentWebhook(l, Event(eventType, Some(p), sub)) == HandlePaymentWebhook(l, Event(eventType, Some(q), None))
  {
  }

  /** Delivering the same `payment.succeeded` event twice credits twice and
      logs two purchase rows with the same payment id. */
  lemma RedeliveryCreditsTwice(l: Ledger, e: Event)
    requires e.eventType == "payment.succeeded"
    requires HandlePaymentWebhook(l, e).Ok?
    ensures e.payment.Some? && ParsePurchase(e.payment.value).Ok?
    ensures var c := ParsePurchase(e.payment.value).value;
      var once := HandlePaymentWebhook(l, e).value;
      var twice := HandlePaymentWebhook(once, e);
      && twice.Ok?
      && twice.value.credits[c.userId] == l.credits[c.userId] + 2 * c.totalCredits
      && twice.value.txns == l.txns + [PurchaseTxn(c), PurchaseTxn(c)]
  {
  }

  /** Buying a catalog package through a checkout whose only line item carries
      that product's metadata adds the package's credits plus bonus. */
  lemma PackagePurchaseGrantsTotal(l: Ledger, i: int, userId: UserId, paymentId: Option<string>)
    requires 0 <= i < |CreditCatalog.CreditPackages|
    requires userId in l.credits
    ensures var pkg := CreditCatalog.CreditPackages[i];
      var e := Event("payment.succeeded",
                     Some(Payment(paymentId, Some(map["user_id" := Str(userId)]),
                                  [LineItem(pkg.name, Some(CreditCatalog.PackageMetadata(pkg)))])),
                     None);
      var r := HandlePaymentWebhook(l, e);
      && r.Ok?
      && r.value.credits[userId] == l.credits[userId] + pkg.credits + pkg.bonus
      && r.value.credits[userId] >= l.credits[userId] + pkg.credits
  {
  }

  // ---------------------------------------------------------------------------
  // Any interleaving of generations and payment webhooks
  // ---------------------------------------------------------------------------

  datatype LedgerOp = Generate(userId: UserId, params: VideoParams) | Webhook(event: Event)

  /** One operation; a failed one leaves the ledger as it was. */
  function Step(l: Ledger, op: LedgerOp): Ledger {
    match op
    case Generate(u, p) =>
      (match GenerateVideo(l, u, p) case Ok(g) => g.ledger case Err(_) => l)
    case Webhook(e) =>
      (match HandlePaymentWebhook(l, e) case Ok(l') => l' case Err(_) => l)
  }

  function Run(l: Ledger, ops: seq<LedgerOp>): Ledger
    decreases |ops|
  {
    if |ops| == 0 then l else Run(Step(l, ops[0]), ops[1..])
  }

  predicate StepGrantsNonNegative(op: LedgerOp) {
    op.Webhook? ==> GrantsNonNegative(op.event)
  }

  /** One step keeps the ledger reconciled, and keeps balances non-negative
      unless it grants a negative amount. */
  lemma StepKeepsInvariant(l: Ledger, op: LedgerOp)
    requires Reconciled(l)
    ensures Reconciled(Step(l, op))
    ensures NonNegative(l) && StepGrantsNonNegative(op) ==> NonNegative(Step(l, op))
  {
    match op {
      case Generate(u, p) => GenerateVideoKeepsInvariant(l, u, p);
      case Webhook(e) => PaymentWebhookKeepsInvariant(l, e);
    }
  }

  /** After any sequence of operations every balance still equals the sum of
      its transactions, and no balance is negative when no purchase granted a
      negative amount. */
  lemma {:induction false} RunKeepsInvariant(l: Ledger, ops: seq<LedgerOp>)
    requires Reconciled(l)
    ensures Reconciled(Run(l, ops))
    ensures NonNegative(l) && (forall k :: 0 <= k < |ops| ==> StepGrantsNonNegative(ops[k]))
      ==> NonNegative(Run(l, ops))
    decreases |ops|
  {
    if |ops| > 0 {
      StepKeepsInvariant(l, ops[0]);
      assert forall k :: 0 <= k < |ops[1..]| ==> ops[1..][k] == ops[k + 1];
      RunKeepsInvariant(Step(l, ops[0]), ops[1..]);
    }
  }

  /** A user starting at 0 buys the Starter Pack (100 credits) and generates a
      10-second 720p standard video (30 credits): 70 credits remain, backed by
      a +100 and a -30 row. A second delivery of the same payment event is
      credited again. */
  lemma PurchaseThenGenerateScenario(paymentId: Option<string>)
    ensures var l0 := Ledger(map["u" := 0], []);
      var pkg := CreditCatalog.CreditPackages[0];
      var e := Event("payment.succeeded",
                     Some(Payment(paymentId, Some(map["user_id" := Str("u")]),
                                  [LineItem(pkg.name, Some(CreditCatalog.PackageMetadata(pkg)))])),
                     None);
      var l1 := HandlePaymentWebhook(l0, e);
      && l1.Ok? && l1.value.credits["u"] == 100
      && var g := GenerateVideo(l1.value, "u", VideoParams("10s", "720p", "standard"));
      && g.Ok? && g.value.ledger.credits["u"] == 70
      && g.value.ledger.txns == [PurchaseTxn(CreditPurchase("u", 100, pkg.name, paymentId)),
                                 Txn("u", -30, VideoGeneration(VideoParams("10s", "720p", "standard")), None)]
      && Balance(g.value.ledger.txns, "u") == 70
      && var l3 := HandlePaymentWebhook(g.value.ledger, e);
      && l3.Ok? && l3.value.credits["u"] == 170
  {
    var pkg := CreditCatalog.CreditPackages[0];
    assert Cost(VideoParams("10s", "720p", "standard")) == 30;
    var l0 := Ledger(map["u" := 0], []);
    var e := Event("payment.succeeded",
                   Some(Payment(paymentId, Some(map["user_id" := Str("u")]),
                                [LineItem(pkg.name, Some(CreditCatalog.PackageMetadata(pkg)))])),
                   None);
    var l1 := HandlePaymentWebhook(l0, e).value;
    var g := GenerateVideo(l1, "u", VideoParams("10s", "720p", "standard")).value;
    var txns := [PurchaseTxn(CreditPurchase("u", 100, pkg.name, paymentId)),
                 Txn("u", -30, VideoGeneration(VideoParams("10s", "720p", "standard")), None)];
    assert g.ledger.txns == txns;
    assert txns[1..][1..] == [];
    assert Balance(txns[1..], "u") == -30;
  }
}

=== FILE: events.dfy ===
/** The provider's webhook payload as the handlers read it.

    The handlers take `event: any`; only the fields below are ever read.
    Metadata is a loosely typed JSON object, so its values keep their JSON
    type: a handler comparing with `=== true` or `=== 'watermark_removal'`
    sees the difference between `true` and `'true'`, and a missing key. A
    metadata object may itself be absent; destructuring it then throws. */
module Events {
  import opened Basics

  /** A JSON scalar. Numbers are integers (see the README's "Left out"). */
  datatype Value = Null | Bool(b: bool) | Num(n: int) | Str(s: string)

  type Metadata = map<string, Value>

  datatype LineItem = LineItem(name: string, metadata: Option<Metadata>)

  /** `payment_id` and `subscription_id` are read without a check, so either
      may be absent (`None`). */
  datatype Payment = Payment(paymentId: Option<string>, metadata: Option<Metadata>, lineItems: seq<LineItem>)

  datatype SubscriptionData = SubscriptionData(subscriptionId: Option<string>, metadata: Option<Metadata>)

  /** The value an ORM `data` field ends up with when it is set from an id the
      payload may omit: an `undefined` field is left out of the write, so the
      stored value stays. */
  function OrStored(id: Option<string>, stored: Option<string>): Option<string> {
    if id.Some? then id else stored
  }

  /** `{ type, data: { payment?, subscription? } }`. */
  datatype Event = Event(eventType: string, payment: Option<Payment>, subscription: Option<SubscriptionData>)

  /** A metadata field that must hold a string (an id) for the ORM to accept
      it; `None` when the metadata object or the key is absent. */
  function StrField(md: Option<Metadata>, key: string): Option<string> {
    if md.Some? && key in md.value && md.value[key].Str? then Some(md.value[key].s) else None
  }

  /** A metadata field that must hold an integer for the ORM to accept it. */
  function IntField(md: Option<Metadata>, key: string): Option<int> {
    if md.Some? && key in md.value && md.value[key].Num? then Some(md.value[key].n) else None
  }
}

=== FILE: plan_upgrades.dfy ===
/** `upgradeSubscription`: change the plan at the provider, then copy the new
    product's metadata into the local subscription row as its `limits`,
    together with the new plan id. Usage trackers are not touched, so a plan
    change mid-month keeps this month's counters. */
module PlanUpgrades {
  import opened Basics
  import opened Tables
  import opened Calendar
  import opened SubscriptionTiers
  import opened UsageTracking

  /** What the provider's `changePlan` resolves to; the handler returns it unread. */
  datatype ProviderSubscription = ProviderSubscription(subscriptionId: string, productId: string)

  /** What the provider's `products.retrieve` resolves to. */
  datatype Product = Product(productId: string, metadata: TierFeatures)

  /** A completed upgrade: the new local state and the provider's answer. */
  datatype Upgraded = Upgraded(db: TierDb, returned: ProviderSubscription)

  /** The `where: { dodoSubscriptionId }` of the local update. */
  function BySubscriptionId(subscriptionId: string): SubscriptionRecord -> bool {
    (s: SubscriptionRecord) => s.dodoSubscriptionId == subscriptionId
  }

  /** The column's uniqueness, which the ORM's single-row `update` relies on. */
  predicate UniqueSubscriptionIds(subs: seq<SubscriptionRecord>) {
    forall i, j :: 0 <= i < j < |subs| ==> subs[i].dodoSubscriptionId != subs[j].dodoSubscriptionId
  }

  /** The row `subscriptionId` names has become `newPlanId` with `limits`;
      every other row and every other column is as before. */
  predicate ChangedPlan(before: seq<SubscriptionRecord>, after: seq<SubscriptionRecord>,
                        subscriptionId: string, newPlanId: string, limits: TierFeatures)
  {
    && |after| == |before|
    && exists k :: 0 <= k < |before| && before[k].dodoSubscriptionId == subscriptionId
         && after[k] == before[k].(limits := limits, planId := newPlanId)
         && forall i :: 0 <= i < |before| && i != k ==> after[i] == before[i]
  }

  /** `upgradeSubscription`. The provider calls come first and are parameters
      here: `changed` is what `changePlan` produced and `retrieved` what
      `products.retrieve` produced. A rejection of either aborts before the
      local update; a missing local row makes the update throw. */
  function UpgradeSubscription(db: TierDb, subscriptionId: string, newPlanId: string,
                               changed: Result<ProviderSubscription>, retrieved: Result<Product>): (r: Result<Upgraded>)
    ensures changed.Err? ==> r == Err(changed.error)
    ensures changed.Ok? && retrieved.Err? ==> r == Err(retrieved.error)
    ensures changed.Ok? && retrieved.Ok? ==>
      (r.Ok? <==> exists i :: 0 <= i < |db.subscriptions| && db.subscriptions[i].dodoSubscriptionId == subscriptionId)
    ensures changed.Ok? && retrieved.Ok? && r.Err? ==> r.error == RecordNotFound
    ensures r.Ok? ==>
      && changed.Ok? && retrieved.Ok?
      && r.value.returned == changed.value
      && r.value.db.trackers == db.trackers
      && r.value.db.usageRecords == db.usageRecords
      && ChangedPlan(db.subscriptions, r.value.db.subscriptions, subscriptionId, newPlanId, retrieved.value.metadata)
  {
    match changed
    case Err(e) => Err(e)
    case Ok(updated) =>
      match retrieved
      case Err(e) => Err(e)
      case Ok(product) =>
        match FirstIndex(db.subscriptions, BySubscriptionId(subscriptionId))
        case None => Err(RecordNotFound)
        case Some(k) =>
          var subs := db.subscriptions[k := db.subscriptions[k].(limits := product.metadata, planId := newPlanId)];
          Ok(Upgraded(db.(subscriptions := subs), updated))
  }

  /** Repeating an upgrade leaves the state it left the first time. */
  lemma UpgradeIdempotent(db: TierDb, subscriptionId: string, newPlanId: string,
                          changed: Result<ProviderSubscription>, retrieved: Result<Product>)
    requires UpgradeSubscription(db, subscriptionId, newPlanId, changed, retrieved).Ok?
    ensures var once := UpgradeSubscription(db, subscriptionId, newPlanId, changed, retrieved).value;
      UpgradeSubscription(once.db, subscriptionId, newPlanId, changed, retrieved) == Ok(once)
  {
    var once := UpgradeSubscription(db, subscriptionId, newPlanId, changed, retrieved).value;
    var subs, after := db.subscriptions, once.db.subscriptions;
    var k := FirstIndex(subs, BySubscriptionId(subscriptionId)).value;
    assert forall j :: 0 <= j < k ==> after[j] == subs[j];
    FirstIndexIs(after, BySubscriptionId(subscriptionId), k);
    assert after[k := after[k].(limits := retrieved.value.metadata, planId := newPlanId)] == after;
  }

  /** Upgrading the subscription a user's quota check reads to the Pro plan
      lets that user export at once, whatever this month's counter says. */
  lemma UpgradeToProUnlocksExports(db: TierDb, subscriptionId: string, newPlanId: string,
                                   changed: Result<ProviderSubscription>, retrieved: Result<Product>,
                                   userId: UserId, now: Date)
    requires Valid(now)
    requires UniqueSubscriptionIds(db.subscriptions)
    requires CurrentSubscription(db, userId).Some?
    requires CurrentSubscription(db, userId).value.dodoSubscriptionId == subscriptionId
    requires changed.Ok? && retrieved.Ok? && retrieved.value.metadata == Pro.features
    ensures var r := UpgradeSubscription(db, subscriptionId, newPlanId, changed, retrieved);
      r.Ok? && CanExportVideo(r.value.db, userId, now) == Ok(Allowed)
  {
  }
}

=== FILE: subscription_renewal.dfy ===
/** `handleSubscriptionWebhook`: on `subscription.renewed`, upsert the usage
    tracker of the current billing month, zeroing the monthly export counter.
    The storage counter is kept only when that month's tracker already
    exists; a new month's tracker starts at 0. */
module SubscriptionRenewal {
  import opened Basics
  import opened Tables
  import opened Calendar
  import opened Events
  import opened UsageTracking

  /** The tracker table's compound unique key `userId_subscriptionId_period`. */
  datatype TrackerKey = TrackerKey(userId: UserId, subscriptionId: string, period: Period)

  function KeyOf(t: UsageTracker): TrackerKey {
    TrackerKey(t.userId, t.subscriptionId, t.period)
  }

  /** The upsert's `where`. */
  function Keyed(key: TrackerKey): UsageTracker -> bool {
    (t: UsageTracker) => KeyOf(t) == key
  }

  /** The uniqueness constraint the upsert relies on. */
  predicate UniqueKeys(ts: seq<UsageTracker>) {
    forall i, j :: 0 <= i < j < |ts| ==> KeyOf(ts[i]) != KeyOf(ts[j])
  }

  predicate HasKey(ts: seq<UsageTracker>, key: TrackerKey) {
    exists i :: 0 <= i < |ts| && KeyOf(ts[i]) == key
  }

  /** The upsert: the row with `key` gets `exports_used: 0` and nothing else
      changes; without such a row, a new one with both counters at 0 is added. */
  function UpsertRenewal(ts: seq<UsageTracker>, key: TrackerKey): (r: seq<UsageTracker>)
    ensures HasKey(ts, key) ==>
      && |r| == |ts|
      && (forall i :: 0 <= i < |ts| ==> KeyOf(r[i]) == KeyOf(ts[i]) && r[i].storageUsedGb == ts[i].storageUsedGb)
      && (forall i :: 0 <= i < |ts| && KeyOf(ts[i]) != key ==> r[i] == ts[i])
      && (UniqueKeys(ts) ==> forall i :: 0 <= i < |ts| && KeyOf(ts[i]) == key ==> r[i].exportsUsed == 0)
    ensures !HasKey(ts, key) ==>
      r == ts + [UsageTracker(key.userId, key.subscriptionId, key.period, 0, 0)]
    ensures HasKey(r, key)
    ensures UniqueKeys(ts) ==> UniqueKeys(r)
  {
    match FirstIndex(ts, Keyed(key))
    case Some(k) => ts[k := ts[k].(exportsUsed := 0)]
    case None =>
      var r := ts + [UsageTracker(key.userId, key.subscriptionId, key.period, 0, 0)];
      assert KeyOf(r[|ts|]) == key;
      r
  }

  /** A second upsert for the same key finds the row the first one wrote and
      rewrites it with the values it already has. */
  lemma UpsertIdempotent(ts: seq<UsageTracker>, key: TrackerKey)
    ensures UpsertRenewal(UpsertRenewal(ts, key), key) == UpsertRenewal(ts, key)
  {
  }

  /** `handleSubscriptionWebhook`. Only `subscription.renewed` does anything;
      it reads `data.subscription.subscription_id` and the `user_id` in its
      metadata, and keys the tracker by the month containing `now`. Without a
      subscription id the compound unique key is incomplete and the upsert
      throws. */
  function HandleSubscriptionWebhook(db: TierDb, e: Event, now: Date): (r: Result<TierDb>)
    requires Valid(now)
    ensures e.eventType != "subscription.renewed" ==> r == Ok(db)
    ensures r.Ok? ==> r.value.subscriptions == db.subscriptions && r.value.usageRecords == db.usageRecords
    ensures r.Err? <==>
      e.eventType == "subscription.renewed"
      && (|| e.subscription.None?
          || StrField(e.subscription.value.metadata, "user_id").None?
          || e.subscription.value.subscriptionId.None?)
    ensures r.Err? ==> r.error == MalformedEvent
    ensures r.Ok? && e.eventType == "subscription.renewed" ==>
      r.value.trackers == UpsertRenewal(db.trackers, RenewalKey(e.subscription.value, now))
  {
    if e.eventType != "subscription.renewed" then Ok(db)
    else if e.subscription.None? then Err(MalformedEvent)
    else if e.subscription.value.subscriptionId.None? then Err(MalformedEvent)
    else match StrField(e.subscription.value.metadata, "user_id")
      case None => Err(MalformedEvent)
      case Some(_) => Ok(db.(trackers := UpsertRenewal(db.trackers, RenewalKey(e.subscription.value, now))))
  }

  /** The tracker a renewal targets. */
  function RenewalKey(s: SubscriptionData, now: Date): TrackerKey
    requires Valid(now) && StrField(s.metadata, "user_id").Some? && s.subscriptionId.Some?
  {
    TrackerKey(StrField(s.metadata, "user_id").value, s.subscriptionId.value, CurrentBillingPeriod(now))
  }

  /** Renewal resets the monthly counter of every tracker with the renewed
      key, keeps its storage counter, leaves trackers with other keys as they
      were, and keeps the table's keys unique. */
  lemma RenewalResetsOnlyItsKey(db: TierDb, e: Event, now: Date)
    requires Valid(now) && UniqueKeys(db.trackers)
    requires e.eventType == "subscription.renewed"
    requires HandleSubscriptionWebhook(db, e, now).Ok?
    ensures var key := RenewalKey(e.subscription.value, now);
      var ts := HandleSubscriptionWebhook(db, e, now).value.trackers;
      && UniqueKeys(ts)
      && (exists i :: 0 <= i < |ts| && KeyOf(ts[i]) == key && ts[i].exportsUsed == 0)
      && (forall i :: 0 <= i < |ts| && KeyOf(ts[i]) == key ==>
            ts[i].exportsUsed == 0
            && ts[i].storageUsedGb == (if HasKey(db.trackers, key) then db.trackers[i].storageUsedGb else 0))
      && (forall i :: 0 <= i < |db.trackers| && KeyOf(db.trackers[i]) != key ==> ts[i] == db.trackers[i])
  {
  }

  /** Delivering a renewal again, at any later time in the same month,
      leaves the same state as delivering it once. */
  lemma RenewalIdempotent(db: TierDb, e: Event, now: Date, later: Date)
    requires Valid(now) && Valid(later)
    requires later.year == now.year && later.month == now.month
    requires HandleSubscriptionWebhook(db, e, now).Ok?
    ensures var once := HandleSubscriptionWebhook(db, e, now).value;
      HandleSubscriptionWebhook(once, e, later) == Ok(once)
  {
    if e.eventType == "subscription.renewed" {
      SamePeriodIffSameMonth(now, later);
      assert RenewalKey(e.subscription.value, later) == RenewalKey(e.subscription.value, now);
      UpsertIdempotent(db.trackers, RenewalKey(e.subscription.value, now));
    }
  }

  /** Storage is not carried into a new month: when the user has no tracker
      for the month yet, the renewal adds one with both counters at 0 after
      the existing rows, and that is the tracker the month's usage check
      reads, whatever earlier months' trackers hold. */
  lemma NewMonthStartsStorageAtZero(db: TierDb, e: Event, now: Date)
    requires Valid(now)
    requires e.eventType == "subscription.renewed"
    requires HandleSubscriptionWebhook(db, e, now).Ok?
    requires MonthlyUsage(db, RenewalKey(e.subscription.value, now).userId, now).None?
    ensures var key := RenewalKey(e.subscription.value, now);
      var after := HandleSubscriptionWebhook(db, e, now).value;
      && after.trackers == db.trackers + [UsageTracker(key.userId, key.subscriptionId, key.period, 0, 0)]
      && MonthlyUsage(after, key.userId, now) == Some(UsageTracker(key.userId, key.subscriptionId, key.period, 0, 0))
  {
    var key := RenewalKey(e.subscription.value, now);
    forall i | 0 <= i < |db.trackers|
      ensures KeyOf(db.trackers[i]) != key
    {
      assert !TrackerIn(key.userId, key.period)(db.trackers[i]);
    }
    var ts := db.trackers + [UsageTracker(key.userId, key.subscriptionId, key.period, 0, 0)];
    FirstIndexIs(ts, TrackerIn(key.userId, key.period), |db.trackers|);
  }

  /** A user whose January tracker holds 40 GB renews in February: the
      February check reads a fresh tracker with 0 GB, and January's row is
      untouched. */
  lemma StorageNotCarriedIntoFebruary()
    ensures var jan := UsageTracker("u", "sub", CurrentBillingPeriod(Date(2025, 1, 15)), 3, 40);
      var e := Event("subscription.renewed", None,
                     Some(SubscriptionData(Some("sub"), Some(map["user_id" := Str("u")]))));
      var after := HandleSubscriptionWebhook(TierDb([], [jan], []), e, Date(2025, 2, 3));
      && after.Ok?
      && MonthlyUsage(after.value, "u", Date(2025, 2, 3))
         == Some(UsageTracker("u", "sub", CurrentBillingPeriod(Date(2025, 2, 3)), 0, 0))
      && MonthlyUsage(after.value, "u", Date(2025, 1, 20)) == Some(jan)
  {
    var jan := UsageTracker("u", "sub", CurrentBillingPeriod(Date(2025, 1, 15)), 3, 40);
    var e := Event("subscription.renewed", None,
                   Some(SubscriptionData(Some("sub"), Some(map["user_id" := Str("u")]))));
    var db := TierDb([], [jan], []);
    assert CurrentBillingPeriod(Date(2025, 1, 15)) != CurrentBillingPeriod(Date(2025, 2, 3));
    assert MonthlyUsage(db, "u", Date(2025, 2, 3)).None? by {
      assert !TrackerIn("u", CurrentBillingPeriod(Date(2025, 2, 3)))(jan);
    }
    NewMonthStartsStorageAtZero(db, e, Date(2025, 2, 3));
    SamePeriodIffSameMonth(Date(2025, 1, 15), Date(2025, 1, 20));
    var after := HandleSubscriptionWebhook(db, e, Date(2025, 2, 3)).value;
    FirstIndexIs(after.trackers, TrackerIn("u", CurrentBillingPeriod(Date(2025, 1, 20))), 0);
  }

  /** After a renewal, a usage check later in the same month sees a zero
      counter, so a subscriber with a positive or unlimited cap may export
      again; this holds when the user has no tracker for the month under a
      different subscription, which the check would otherwise read first. */
  lemma RenewalReopensQuota(db: TierDb, e: Event, now: Date, later: Date)
    requires Valid(now) && Valid(later)
    requires later.year == now.year && later.month == now.month
    requires e.eventType == "subscription.renewed"
    requires HandleSubscriptionWebhook(db, e, now).Ok?
    requires var key := RenewalKey(e.subscription.value, now);
      forall i :: 0 <= i < |db.trackers| && db.trackers[i].userId == key.userId && db.trackers[i].period == key.period
        ==> db.trackers[i].subscriptionId == key.subscriptionId
    requires var u := RenewalKey(e.subscription.value, now).userId;
      CurrentSubscription(db, u).Some?
      && var limit := CurrentSubscription(db, u).value.limits.exportsPerMonth;
      limit == SubscriptionTiers.Unlimited || limit > 0
    ensures var after := HandleSubscriptionWebhook(db, e, now).value;
      CanExportVideo(after, RenewalKey(e.subscription.value, now).userId, later) == Ok(Allowed)
  {
  }
}

=== FILE: subscription_tiers.dfy ===
/** The subscription tier table and the recurring products created from it.
    A tier's `features` record becomes its product's metadata and, through a
    plan change, the `limits` the quota check reads. */
module SubscriptionTiers {

  /** The sentinel `exports_per_month` value meaning "no monthly cap". */
  const Unlimited: int := -1

  datatype TierFeatures = TierFeatures(
    exportsPerMonth: int,
    maxDurationSeconds: int,
    quality: string,
    storageGb: int,
    features: seq<string>)

  datatype Tier = Tier(name: string, priceCents: int, features: TierFeatures)

  const Starter: Tier := Tier("Starter Plan", 2900,
    TierFeatures(10, 60, "1080p", 5, ["basic_editor", "stock_music"]))
  const Creator: Tier := Tier("Creator Plan", 8900,
    TierFeatures(50, 300, "4K", 50, ["advanced_editor", "stock_music", "custom_branding"]))
  const Pro: Tier := Tier("Pro Plan", 19900,
    TierFeatures(Unlimited, 600, "4K", 200, ["all_features", "priority_support", "api_access"]))

  const Tiers: seq<Tier> := [Starter, Creator, Pro]

  datatype Interval = Interval(count: int, unit: string)

  datatype RecurringPrice = RecurringPrice(
    priceCents: int,
    currency: string,
    paymentFrequency: Interval,
    subscriptionPeriod: Interval,
    trialPeriodDays: int,
    discount: int,
    purchasingPowerParity: bool)

  /** The request passed to the provider's `products.create`. */
  datatype ProductRequest = ProductRequest(name: string, price: RecurringPrice, taxCategory: string, metadata: TierFeatures)

  function TierProduct(t: Tier): ProductRequest {
    ProductRequest(t.name,
      RecurringPrice(t.priceCents, "USD", Interval(1, "Month"), Interval(1, "Month"), 14, 0, false),
      "saas", t.features)
  }

  /** A product that bills `t`'s price once a month and whose metadata is
      exactly `t`'s features. */
  predicate SellsTier(r: ProductRequest, t: Tier) {
    && r.name == t.name
    && r.metadata == t.features
    && r.price.priceCents == t.priceCents
    && r.price.paymentFrequency == Interval(1, "Month")
    && r.price.subscriptionPeriod == Interval(1, "Month")
  }

  /** `createSubscriptionProducts`: one request per tier, in table order. */
  method CreateSubscriptionProducts(tiers: seq<Tier>) returns (requests: seq<ProductRequest>)
    ensures |requests| == |tiers|
    ensures forall i :: 0 <= i < |tiers| ==> SellsTier(requests[i], tiers[i])
  {
    requests := [];
    for k := 0 to |tiers|
      invariant |requests| == k
      invariant forall i :: 0 <= i < k ==> SellsTier(requests[i], tiers[i])
    {
      requests := requests + [TierProduct(tiers[k])];
    }
  }

  /** Each resource grows strictly from tier to tier. */
  predicate StrictlyIncreasing(tiers: seq<Tier>) {
    forall i, j :: 0 <= i < j < |tiers| ==>
      && tiers[i].features.storageGb < tiers[j].features.storageGb
      && tiers[i].features.maxDurationSeconds < tiers[j].features.maxDurationSeconds
      && tiers[i].priceCents < tiers[j].priceCents
  }

  /** Export caps 10, 50 and unlimited; storage 5, 50 and 200 GB; durations
      60, 300 and 600 s; prices 2900, 8900 and 19900 cents. */
  lemma TierTableFacts()
    ensures |Tiers| == 3
    ensures Tiers[0].features.exportsPerMonth == 10
    ensures Tiers[1].features.exportsPerMonth == 50
    ensures Tiers[2].features.exportsPerMonth == Unlimited
    ensures Tiers[0].features.storageGb == 5 && Tiers[1].features.storageGb == 50 && Tiers[2].features.storageGb == 200
    ensures Tiers[0].features.maxDurationSeconds == 60 && Tiers[1].features.maxDurationSeconds == 300
    ensures Tiers[2].features.maxDurationSeconds == 600
    ensures Tiers[0].priceCents == 2900 && Tiers[1].priceCents == 8900 && Tiers[2].priceCents == 19900
    ensures StrictlyIncreasing(Tiers)
    ensures forall i :: 0 <= i < |Tiers| ==> Tiers[i].features.exportsPerMonth == Unlimited || Tiers[i].features.exportsPerMonth > 0
  {
  }
}

=== FILE: usage_tracking.dfy ===
/** Monthly export quota: the `canExportVideo` gate and `recordExport`.

    The tables involved are `subscription`, `usageTracker` (one row per
    user, subscription and billing month) and the append-only `usageRecord`
    log. Rows are kept in table order so that `findFirst` picks the first
    matching row. */
module UsageTracking {
  import opened Basics
  import opened Tables
  import opened Calendar
  import opened SubscriptionTiers

  /** A `subscription` row; `limits` is the plan product's metadata. */
  datatype SubscriptionRecord = SubscriptionRecord(
    userId: UserId,
    dodoSubscriptionId: string,
    status: string,
    planId: string,
    limits: TierFeatures)

  /** A `usageTracker` row, one per user, subscription and month: a renewal
      resets `exportsUsed` and keeps `storageUsedGb` of the month's row, and a
      new month's row starts both at 0. */
  datatype UsageTracker = UsageTracker(
    userId: UserId,
    subscriptionId: string,
    period: Period,
    exportsUsed: int,
    storageUsedGb: int)

  /** A `usageRecord` row. */
  datatype UsageRecord = UsageRecord(userId: UserId, kind: string, timestamp: Date, videoSize: int)

  datatype TierDb = TierDb(
    subscriptions: seq<SubscriptionRecord>,
    trackers: seq<UsageTracker>,
    usageRecords: seq<UsageRecord>)

  /** The `where` of `getCurrentSubscription`. */
  function ActiveOf(userId: UserId): SubscriptionRecord -> bool {
    (s: SubscriptionRecord) => s.userId == userId && s.status == "active"
  }

  /** The `where` of `getMonthlyUsage`. */
  function TrackerIn(userId: UserId, period: Period): UsageTracker -> bool {
    (t: UsageTracker) => t.userId == userId && t.period == period
  }

  /** `getCurrentSubscription`: the user's first `active` subscription. */
  function CurrentSubscription(db: TierDb, userId: UserId): Option<SubscriptionRecord> {
    FindFirst(db.subscriptions, ActiveOf(userId))
  }

  /** `getMonthlyUsage`: the user's first tracker for the current billing
      month, whichever subscription it belongs to. */
  function MonthlyUsage(db: TierDb, userId: UserId, now: Date): Option<UsageTracker>
    requires Valid(now)
  {
    FindFirst(db.trackers, TrackerIn(userId, CurrentBillingPeriod(now)))
  }

  /** The gate's answer; a denial carries the counter and the cap that the
      message "Monthly export limit reached (used/limit)" shows. */
  datatype ExportDecision = Allowed | Denied(used: int, limit: int)

  /** A counter value is within a monthly cap. */
  predicate WithinQuota(used: int, limit: int) {
    limit == Unlimited || used < limit
  }

  /** `canExportVideo`: an unlimited plan always passes without reading the
      counter; otherwise the export is refused once the counter has reached the
      cap. A missing subscription, or a missing counter under a finite cap, is
      dereferenced as null and aborts the call. */
  function CanExportVideo(db: TierDb, userId: UserId, now: Date): (r: Result<ExportDecision>)
    requires Valid(now)
    ensures r == Err(NoActiveSubscription) <==> CurrentSubscription(db, userId).None?
    ensures r == Ok(Allowed) <==>
      && CurrentSubscription(db, userId).Some?
      && (|| CurrentSubscription(db, userId).value.limits.exportsPerMonth == Unlimited
          || (MonthlyUsage(db, userId, now).Some?
              && WithinQuota(MonthlyUsage(db, userId, now).value.exportsUsed,
                             CurrentSubscription(db, userId).value.limits.exportsPerMonth)))
    ensures r.Ok? && r.value.Denied? ==>
      && CurrentSubscription(db, userId).Some?
      && MonthlyUsage(db, userId, now).Some?
      && r.value.used == MonthlyUsage(db, userId, now).value.exportsUsed
      && r.value.limit == CurrentSubscription(db, userId).value.limits.exportsPerMonth
      && !WithinQuota(r.value.used, r.value.limit)
    ensures r.Ok? || r.error in {NoActiveSubscription, NoUsageRecord}
    ensures
      && CurrentSubscription(db, userId).Some?
      && MonthlyUsage(db, userId, now).Some?
      && !WithinQuota(MonthlyUsage(db, userId, now).value.exportsUsed,
                      CurrentSubscription(db, userId).value.limits.exportsPerMonth)
      ==> r == Ok(Denied(MonthlyUsage(db, userId, now).value.exportsUsed,
                         CurrentSubscription(db, userId).value.limits.exportsPerMonth))
    ensures r == Err(NoUsageRecord) <==>
      && CurrentSubscription(db, userId).Some?
      && CurrentSubscription(db, userId).value.limits.exportsPerMonth != Unlimited
      && MonthlyUsage(db, userId, now).None?
  {
    match CurrentSubscription(db, userId)
    case None => Err(NoActiveSubscription)
    case Some(sub) =>
      var limit := sub.limits.exportsPerMonth;
      if limit == Unlimited then Ok(Allowed)
      else match MonthlyUsage(db, userId, now)
        case None => Err(NoUsageRecord)
        case Some(usage) =>
          if usage.exportsUsed >= limit then Ok(Denied(usage.exportsUsed, limit)) else Ok(Allowed)
  }

  /** `recordExport`: append one `export` usage record stamped `now`. */
  function RecordExport(db: TierDb, userId: UserId, videoSize: int, now: Date): (r: TierDb)
    ensures r.subscriptions == db.subscriptions && r.trackers == db.trackers
    ensures |r.usageRecords| == |db.usageRecords| + 1
    ensures r.usageRecords[..|db.usageRecords|] == db.usageRecords
    ensures r.usageRecords[|db.usageRecords|] == UsageRecord(userId, "export", now, videoSize)
  {
    db.(usageRecords := db.usageRecords + [UsageRecord(userId, "export", now, videoSize)])
  }

  /** Recording an export does not move the export counter, so no number of
      recorded exports changes any user's gate decision. */
  lemma RecordExportKeepsDecision(db: TierDb, userId: UserId, videoSize: int, at: Date, other: UserId, now: Date)
    requires Valid(now)
    ensures CanExportVideo(RecordExport(db, userId, videoSize, at), other, now) == CanExportVideo(db, other, now)
  {
  }

  /** A subscriber on the Pro plan is never refused and never needs a counter. */
  lemma ProSubscriberNeverDenied(db: TierDb, userId: UserId, now: Date)
    requires Valid(now)
    requires CurrentSubscription(db, userId).Some?
    requires CurrentSubscription(db, userId).value.limits == Pro.features
    ensures CanExportVideo(db, userId, now) == Ok(Allowed)
  {
  }

  /** A Starter subscriber is refused once this month's counter reaches 10,
      and allowed below it. */
  lemma StarterCappedAtTen(db: TierDb, userId: UserId, now: Date)
    requires Valid(now)
    requires CurrentSubscription(db, userId).Some?
    requires CurrentSubscription(db, userId).value.limits == Starter.features
    requires MonthlyUsage(db, userId, now).Some?
    ensures var used := MonthlyUsage(db, userId, now).value.exportsUsed;
      CanExportVideo(db, userId, now) == (if used >= 10 then Ok(Denied(used, 10)) else Ok(Allowed))
  {
  }
}

=== FILE: watermark_export.dfy ===
/** `handleExport`: export without a watermark for a subscriber whose plan
    metadata says `watermark_free === true`, otherwise offer the three ways
    to get rid of the watermark. */
module WatermarkExport {
  import opened Basics
  import opened Events

  /** The user's plan as `include: { subscription: true }` loads it; its
      metadata is the plan product's metadata. */
  datatype LinkedSubscription = LinkedSubscription(metadata: Option<Metadata>)

  /** A `user` row: the flags the payment webhook writes and the linked plan. */
  datatype User = User(watermarkFree: bool, subscriptionId: Option<string>, subscription: Option<LinkedSubscription>)

  /** A `video` row: a one-time purchase marks it `watermarkFree`. */
  datatype Video = Video(ownerId: UserId, watermarkFree: bool, purchaseId: Option<string>)

  datatype WatermarkDb = WatermarkDb(users: map<UserId, User>, videos: map<string, Video>)

  datatype OfferKind = SubscriptionOffer | OneTimeOffer | FreeOffer

  /** One upsell option; its name, price, description and call to action are
      display text and are not modelled. */
  datatype UpsellOption = UpsellOption(kind: OfferKind, recommended: bool)

  /** `exportVideo`'s `{ success: true, videoId, watermark }`, or the upsell. */
  datatype ExportOutcome = Exported(videoId: string, watermark: bool) | NeedsUpgrade(options: seq<UpsellOption>)

  /** The monthly plan (recommended), this video only, or a free export with the watermark. */
  const UpsellOptions: seq<UpsellOption> := [
    UpsellOption(SubscriptionOffer, true),
    UpsellOption(OneTimeOffer, false),
    UpsellOption(FreeOffer, false)
  ]

  /** `user.subscription?.metadata?.watermark_free === true`: only the JSON
      value `true` qualifies, not `'true'`, `1` or an absent key. */
  predicate HasWatermarkFree(u: User) {
    && u.subscription.Some?
    && u.subscription.value.metadata.Some?
    && "watermark_free" in u.subscription.value.metadata.value
    && u.subscription.value.metadata.value["watermark_free"] == Bool(true)
  }

  /** `handleExport`. A user id with no row makes `user.subscription` throw. */
  function HandleExport(db: WatermarkDb, userId: UserId, videoId: string): (r: Result<ExportOutcome>)
    ensures r.Err? <==> userId !in db.users
    ensures r.Err? ==> r.error == UserNotFound
    ensures r.Ok? ==> (r.value.Exported? <==> HasWatermarkFree(db.users[userId]))
    ensures r.Ok? && r.value.Exported? ==> r.value == Exported(videoId, false)
    ensures r.Ok? && r.value.NeedsUpgrade? ==> r.value.options == UpsellOptions
  {
    if userId !in db.users then Err(UserNotFound)
    else if HasWatermarkFree(db.users[userId]) then Ok(Exported(videoId, false))
    else Ok(NeedsUpgrade(UpsellOptions))
  }

  function CountRecommended(options: seq<UpsellOption>): nat {
    if |options| == 0 then 0
    else (if options[0].recommended then 1 else 0) + CountRecommended(options[1..])
  }

  /** The upsell offers a subscription, a one-time purchase and a free export,
      in that order, and recommends the subscription and nothing else. */
  lemma UpsellShape()
    ensures |UpsellOptions| == 3
    ensures UpsellOptions[0].kind == SubscriptionOffer
    ensures UpsellOptions[1].kind == OneTimeOffer
    ensures UpsellOptions[2].kind == FreeOffer
    ensures CountRecommended(UpsellOptions) == 1 && UpsellOptions[0].recommended
  {
  }

  /** The decision reads nothing but the user's linked plan: not the user's own
      `watermarkFree` flag, not the video row and its one-time unlock. */
  lemma ExportReadsOnlyPlanMetadata(db1: WatermarkDb, db2: WatermarkDb, userId: UserId, videoId: string)
    requires userId in db1.users <==> userId in db2.users
    requires userId in db1.users ==> db1.users[userId].subscription == db2.users[userId].subscription
    ensures HandleExport(db1, userId, videoId) == HandleExport(db2, userId, videoId)
  {
  }

  /** A plan whose flag is the string `'true'`, the boolean `false`, or absent,
      or a user without a plan or without plan metadata, gets the upsell. */
  lemma OnlyBooleanTrueUnlocks(db: WatermarkDb, userId: UserId, videoId: string)
    requires userId in db.users
    requires var u := db.users[userId];
      || u.subscription.None?
      || u.subscription.value.metadata.None?
      || "watermark_free" !in u.subscription.value.metadata.value
      || u.subscription.value.metadata.value["watermark_free"] in {Str("true"), Bool(false), Null, Num(1)}
    ensures HandleExport(db, userId, videoId) == Ok(NeedsUpgrade(UpsellOptions))
  {
  }
}

=== FILE: watermark_payment.dfy ===
/** `handleWatermarkPayment`: a one-time `watermark_removal` payment unlocks
    one video and asks for its clean export; a `subscription.active` event
    flags the user as watermark-free. */
module WatermarkPayment {
  import opened Basics
  import opened Events
  import opened WatermarkExport

  /** The `type` the one-time removal product puts in the payment metadata. */
  const WatermarkRemovalTag: string := "watermark_removal"

  /** A call of `exportVideo(videoId, { watermark })`. */
  datatype ExportRequest = ExportRequest(videoId: string, watermark: bool)

  /** A handled event: the new state and the exports it requested. */
  datatype Effect = Effect(db: WatermarkDb, exports: seq<ExportRequest>)

  /** `handleWatermarkPayment`. An absent metadata object makes its
      destructuring throw; an id field that is absent or not a string, or an id
      with no row, makes the ORM update throw. */
  function HandleWatermarkPayment(db: WatermarkDb, e: Event): (r: Result<Effect>)
    ensures e.eventType != "payment.succeeded" && e.eventType != "subscription.active" ==> r == Ok(Effect(db, []))
    ensures r.Err? ==> r.error in {MalformedEvent, RecordNotFound}
    ensures e.eventType == "payment.succeeded" ==>
      if e.payment.None? then r == Err(MalformedEvent)
      else
        var md := e.payment.value.metadata;
        if md.None? then r == Err(MalformedEvent)
        else if "type" !in md.value || md.value["type"] != Str(WatermarkRemovalTag) then r == Ok(Effect(db, []))
        else if StrField(md, "video_id").None? then r == Err(MalformedEvent)
        else
          var v := StrField(md, "video_id").value;
          if v !in db.videos then r == Err(RecordNotFound)
          else
            && r.Ok?
            && r.value.exports == [ExportRequest(v, false)]
            && r.value.db.users == db.users
            && r.value.db.videos.Keys == db.videos.Keys
            && r.value.db.videos[v] == Video(db.videos[v].ownerId, true, OrStored(e.payment.value.paymentId, db.videos[v].purchaseId))
            && (forall w :: w in db.videos && w != v ==> r.value.db.videos[w] == db.videos[w])
    ensures e.eventType == "subscription.active" ==>
      if e.subscription.None? || StrField(e.subscription.value.metadata, "user_id").None? then r == Err(MalformedEvent)
      else
        var u := StrField(e.subscription.value.metadata, "user_id").value;
        if u !in db.users then r == Err(RecordNotFound)
        else
          && r.Ok?
          && r.value.exports == []
          && r.value.db.videos == db.videos
          && r.value.db.users.Keys == db.users.Keys
          && r.value.db.users[u] == User(true, OrStored(e.subscription.value.subscriptionId, db.users[u].subscriptionId), db.users[u].subscription)
          && (forall w :: w in db.users && w != u ==> r.value.db.users[w] == db.users[w])
  {
    if e.eventType == "payment.succeeded" then
      if e.payment.None? then Err(MalformedEvent)
      else
        var p := e.payment.value;
        if p.metadata.None? then Err(MalformedEvent)
        else if "type" !in p.metadata.value || p.metadata.value["type"] != Str(WatermarkRemovalTag) then Ok(Effect(db, []))
        else match StrField(p.metadata, "video_id")
          case None => Err(MalformedEvent)
          case Some(v) =>
            if v !in db.videos then Err(RecordNotFound)
            else
              var unlocked := db.videos[v].(watermarkFree := true, purchaseId := OrStored(p.paymentId, db.videos[v].purchaseId));
              Ok(Effect(db.(videos := db.videos[v := unlocked]), [ExportRequest(v, false)]))
    else if e.eventType == "subscription.active" then
      if e.subscription.None? then Err(MalformedEvent)
      else
        var s := e.subscription.value;
        match StrField(s.metadata, "user_id")
        case None => Err(MalformedEvent)
        case Some(u) =>
          if u !in db.users then Err(RecordNotFound)
          else
            var flagged := db.users[u].(watermarkFree := true, subscriptionId := OrStored(s.subscriptionId, db.users[u].subscriptionId));
            Ok(Effect(db.(users := db.users[u := flagged]), []))
    else Ok(Effect(db, []))
  }

  /** Replaying an event reaches the same state and requests the same exports
      again. */
  lemma WatermarkPaymentIdempotent(db: WatermarkDb, e: Event)
    requires HandleWatermarkPayment(db, e).Ok?
    ensures var once := HandleWatermarkPayment(db, e).value;
      HandleWatermarkPayment(once.db, e) == Ok(once)
  {
    var once := HandleWatermarkPayment(db, e).value;
    if e.eventType == "payment.succeeded" && e.payment.Some? {
      var md := e.payment.value.metadata;
      if md.Some? && "type" in md.value && md.value["type"] == Str(WatermarkRemovalTag) {
        var v := StrField(md, "video_id").value;
        assert once.db.videos[v := once.db.videos[v]] == once.db.videos;
      }
    } else if e.eventType == "subscription.active" {
      var u := StrField(e.subscription.value.metadata, "user_id").value;
      assert once.db.users[u := once.db.users[u]] == once.db.users;
    }
  }

  /** A one-time removal (indeed any event other than `subscription.active`)
      changes no export decision: the video unlock it writes is not what
      `handleExport` reads, so the buyer is still offered the upsell for the
      video just paid for. */
  lemma UnlockPaymentNeverChangesExportDecision(db: WatermarkDb, e: Event, userId: UserId, videoId: string)
    requires e.eventType != "subscription.active"
    requires HandleWatermarkPayment(db, e).Ok?
    ensures HandleExport(HandleWatermarkPayment(db, e).value.db, userId, videoId) == HandleExport(db, userId, videoId)
  {
  }
}
